=== FILE: README.md ===
# Mini chat app: broadcast hub and chat history

The app is a small Express server with a chat page. A page sends a chat message
as `GET /chat?message=...`. The server passes each non-blank message to one
process-wide `EventEmitter`. Every page that holds an open `GET /sse` stream
has one listener on that emitter, and the listener writes the message to the
stream as a Server-Sent-Events frame `data: <message>\n\n`. The page shows each
message it receives and saves it in the browser's local storage, under the name
of the active chat session. A page can start a new session, reopen an earlier
one, or delete one. The server also has two small endpoints: `/echo`
transforms its `input` query value, and `/json` returns a fixed object.

This project models that core in Dafny and proves properties of the model.

- `wrappers.dfy` (`Wrappers`): `Option`, which stands for an absent query value or storage key.
- `js_text.dfy` (`JsText`): JavaScript strings as sequences of UTF-16 code units.
  - `String.prototype.trim`, using the whitespace set of ECMA-262 sections 12.2 and 12.3.
  - Reversal of code units.
  - Well-formedness, meaning no lone surrogates.
- `event_stream.dfy` (`EventStream`): the frame the server writes, and the browser's reading of a `text/event-stream`.
  - The reading follows "Interpreting an event stream", section 9.2.6 of the WHATWG HTML Living Standard.
  - Only the `data` and `event` fields are modelled.
  - When the message holds no line break, the reading is the frame's inverse: the frame is read back as the message it carries.
- `broadcast.dfy` (`Broadcast`): the emitter as a state machine over three events.
  - The events are: a stream opens (`respondSSE`), a message arrives (`respondChat`), and a stream closes.
  - Each open stream is a connection id.
  - For each connection, the model keeps the log of frames written to it.
- `echo.dfy` (`Echo`): `respondEcho`, and `respondJson`, whose reply never varies (`Echo.RespondJson`).
- `chat_history.dfy` (`ChatHistory`): the stored list of sessions and the updates the page makes to it.
- `chat_client.dfy` (`ChatClient`): the page's state and handlers.
  - The page's state is the stored history, `window.currentSession`, the messages on screen, and the input box.
  - It also has an end-to-end lemma that runs from the hub's logs through the stream reader to the page's screen.

Properties proved include the following:

- A message is published exactly when it is present and not blank.
- Each open stream receives exactly the messages published while it is open, in order. A stream opened late receives nothing published before.
- Closing a stream is idempotent. Opening and then closing a stream restores the listener array.
- A frame is read back as its message, when the message has no line break. A message with a line break does not reach the page intact: it can arrive cut short, split into several messages, or not at all.
- After saving, loading the session returns the old messages followed by the new one. Other sessions are unaffected, and the total message count grows by one.
- Deleting a session preserves order, is idempotent, and leaves other names' lookups unchanged.
- A new chat whose name already exists is shadowed: messages go to the earlier session of that name.
- Deleting the active session does not deactivate it: the next message re-creates that session.

Two details of the code shape what the model promises.

- `respondChat` trims the message only to test it, then publishes it as received (app.js:72-73). `Broadcast.RespondChat` frames the untrimmed message.
- The frame does not escape line breaks (app.js:91). A message holding a line break therefore does not reach the page intact. It can arrive cut short (`EventStream.MultiLineMessageTruncated`), split into two messages (`EventStream.MultiLineMessageSplit`), or under another event type that `onmessage` never sees (`EventStream.MultiLineMessageRetyped`).
  - Such a message can reach the server through a hand-made request such as `GET /chat?message=a%0Ab`.
  - It very likely cannot come from the page's form. `chat.html`, which declares the text box, is not part of this model. The page's style rules treat the box as an `input` element (public/chat.js:186-193). If it is a single-line text input, HTML's value sanitisation strips CR and LF from its value. The model does not rely on this: `ChatClient.Submit` sends whatever trimmed text the box holds.

## Model

| member | source | states |
|---|---|---|
| JsText.Trim | app.js:72 | `trim` returns the infix of the input left between a blank leading margin and a blank trailing margin. The result neither starts nor ends with whitespace. |
| JsText.TrimEmptyIffBlank | app.js:72 | `s.trim() !== ''` holds exactly when `s` has a non-whitespace code unit. |
| JsText.TrimOfTrimmed | public/chat.js:18-19 | A string with no whitespace at either end is left alone by `trim`. |
| JsText.TrimIdempotent | public/chat.js:18-20 | Trimming the text the page already trimmed changes nothing. |
| JsText.Reverse | app.js:51 | `split('').reverse().join('')` keeps the length and puts code unit `i` at position `length - 1 - i`. |
| Echo.RespondEcho | app.js:45-53 | `normal` is the `input` value, or `''` when it is absent. `shouty` is its upper-case form. `charCount` is its length in code units. `backwards` holds its code units in reverse order. |
| Echo.BackwardsRoundTrip | app.js:51 | Reversing `backwards` once more gives back `normal`. |
| Echo.RespondJson | app.js:28-33 | The reply is always the object with `text` `hi` and `numbers` `[1, 2, 3]`, in that order. |
| EventStream.Frame | app.js:91 | The frame is `data: `, then the message, then two LFs. Its length is the message length plus 8. |
| EventStream.FrameInjective | app.js:91 | Two messages get the same frame only if they are equal. |
| EventStream.FrameRoundTrip | app.js:91 | Read by an event-stream parser, the frame of a message with no line break dispatches one `message` event carrying exactly that message. The parser is left cleared for what follows. |
| EventStream.StreamRoundTrip | app.js:91 | A stream made of frames, one after another, is read back as one `message` event per message, in order, when no message holds a line break. |
| EventStream.MultiLineMessageTruncated | app.js:91 | A message with a line break is not delivered intact. Here the second line has no colon and is not the bare word `data`, and the page receives only the first line. |
| EventStream.MultiLineMessageSplit | app.js:91 | A message that holds a blank line followed by `data: ` reaches the page as two `message` events, its first and second parts. |
| EventStream.MultiLineMessageRetyped | app.js:91 | A message whose second line is `event: <t>` is dispatched as one event of type `t` carrying the first line, so `onmessage` never sees it unless `t` is `message`. |
| Broadcast.StartedValid | app.js:11 | A fresh emitter with no listeners satisfies the hub invariant. |
| Broadcast.LastIndexOf | app.js:95 | `off` finds the last registration of the listener, or none when it is not registered. |
| Broadcast.RemoveListener | app.js:95 | `off` leaves the listener array unchanged when the listener is not registered. Otherwise the array is one entry shorter. Every other listener's registration is kept either way. |
| Broadcast.RemoveListenerIsWithout | app.js:95 | On a listener array without duplicates, removing the last registration is the same as filtering the listener out. |
| Broadcast.Deliver | app.js:73 | `emit` goes over a snapshot of the listeners. Each one in the snapshot writes the frame once to its own connection. No other connection's output changes. |
| Broadcast.Emit | app.js:73 | After `emit`, every registered connection's output has gained the frame of the message. Unregistered connections and the listener array are unchanged, and the hub invariant still holds. |
| Broadcast.ShouldPublishIffNotBlank | app.js:72 | The publish guard passes exactly when the query has a `message` and it is not whitespace only. |
| Broadcast.RespondChat | app.js:70-76 | The response always ends with an empty body. When the guard passes, the untrimmed message's frame is appended to every registered connection's output. Otherwise the hub is unchanged. No listener is added or removed. |
| Broadcast.RespondSSE | app.js:85-92 | The response becomes a stream. A listener for a fresh connection goes at the end of the listener array with empty output, and every other connection is unchanged. |
| Broadcast.OnClose | app.js:94-96 | Closing deregisters that connection and keeps every other listener and all outputs. The array shrinks by one if the connection was registered, and nothing changes if it was not. |
| Broadcast.CloseIdempotent | app.js:94-96 | A second close of the same connection changes nothing. |
| Broadcast.ConnectThenClose | app.js:92-96 | Opening a stream and closing it straight away gives back the original listener array. |
| Broadcast.Run | app.js:103-107 | Every sequence of opens, chat requests and closes keeps the hub invariant: listeners are registered once, write to known connections, and ids are fresh. |
| Broadcast.RunAppend | app.js:103-107 | Running two sequences of events one after the other is running their concatenation. |
| Broadcast.StepOpen | app.js:91-96 | A registered connection's output grows by what one event sends it. It stays registered unless that event is its own close. |
| Broadcast.StepClosed | app.js:94-96 | A closed connection's output does not change, and it is not registered again. |
| Broadcast.ClosedLogFrozen | app.js:94-96 | A closed connection is never written to again, whatever follows. |
| Broadcast.OpenLogGrows | app.js:91-96 | A registered connection's output grows by exactly the frames of the messages published until it closes, in order. |
| Broadcast.LateSubscriber | app.js:85-92 | A stream opened after some history receives exactly the messages published after it opened and until it closes, and nothing published earlier. |
| ChatHistory.ReadHistory | public/chat.js:26-27 | With nothing stored the history is the empty list. Otherwise it is the stored list. |
| ChatHistory.ActiveName | public/chat.js:33 | The active session name is `window.currentSession` when that is set and non-empty. Otherwise it is `Chat`. It is never empty. |
| ChatHistory.FindIndex | public/chat.js:35 | `findIndex` returns -1 exactly when no session has the name. Otherwise it returns the first position that has it. |
| ChatHistory.Find | public/chat.js:76 | `find` returns nothing exactly when no session has the name. Otherwise it returns the first stored session with that name: every session before it has another name. |
| ChatHistory.Last | public/chat.js:47-48 | The last session, present exactly when the history is non-empty. |
| ChatHistory.SaveMessage | public/chat.js:31-42 | The history grows only when no session has the name, and then by one session holding just the message. Otherwise the first session with the name gains the message at the end of its list. Every other existing session is left exactly as it was, and every session keeps its position and name. |
| ChatHistory.SaveThenFind | public/chat.js:35-40 | After a save, the session found under the name holds its previous messages followed by the new one. |
| ChatHistory.SaveKeepsOthers | public/chat.js:35-40 | A save changes nothing that a lookup of any other name finds. |
| ChatHistory.SaveAddsOne | public/chat.js:36-40 | Every save stores exactly one more message in total. |
| ChatHistory.TotalAppend | public/chat.js:39 | The message count of two joined lists is the sum of their counts. |
| ChatHistory.TotalUpdate | public/chat.js:37 | Replacing one session changes the total by the difference in its message count. |
| ChatHistory.CreateSession | public/chat.js:64-66 | Creating a session appends an empty session with the name and leaves the earlier sessions as they were. |
| ChatHistory.CreateThenFind | public/chat.js:65 | The new session is found under its name only if no earlier session has that name. Otherwise lookups still reach the earlier session. |
| ChatHistory.CreateKeepsTotal | public/chat.js:65 | Creating a session stores no message. |
| ChatHistory.DeleteSession | public/chat.js:91-93 | After a delete, no session with the name remains. Every session with another name is still present. The list does not grow. |
| ChatHistory.DeleteAppend | public/chat.js:92 | The delete filter distributes over joined lists, so it keeps the order of what stays. |
| ChatHistory.DeleteAbsent | public/chat.js:92 | Deleting a name no session has leaves the history as it is. |
| ChatHistory.DeleteIdempotent | public/chat.js:92 | Deleting the same name twice is deleting it once. |
| ChatHistory.DeleteThenFind | public/chat.js:92 | After a delete, nothing is found under that name. |
| ChatHistory.DeleteKeepsOthers | public/chat.js:92 | A delete changes nothing that a lookup of any other name finds. |
| ChatClient.OnMessage | public/chat.js:4-13 | The message is shown after the earlier ones. The stored history becomes the saved history: the stored list, or the empty list, with the message saved under the active name. The session under the active name then holds its previous messages followed by this one. The total stored grows by one. The active name and the input box are unchanged. |
| ChatClient.OnMessageUnsaved | public/chat.js:4-9 | When the storage write throws, the message is still shown, and the page differs from a saving handler's page only in that the stored history is the old one. |
| ChatClient.Submit | public/chat.js:16-23 | A blank input sends nothing. A non-blank input with a lone surrogate throws, and the page is unchanged. Otherwise the trimmed input is sent and the input box is cleared. |
| ChatClient.SubmittedIsPublished | public/chat.js:18-20 | Whatever a submit sends passes the server's publish guard, and trimming it again changes nothing. |
| ChatClient.NewChatName | public/chat.js:61-62 | The new session name is `Chat (`, then the formatted time, then `)`. |
| ChatClient.NewChat | public/chat.js:60-71 | A new chat makes the new name active and stores an empty session under it at the end. It clears the screen and sends the greeting. |
| ChatClient.NewChatUnsaved | public/chat.js:60-66 | When the storage write throws, the new name is already active, but the stored history, the screen and the input box are as they were, and no greeting is sent. |
| ChatClient.NewChatUnsavedThenMessage | public/chat.js:31-41 | After a new chat whose write failed, the next message is saved under the new name. When that name is new, the message itself creates the session at the end. |
| ChatClient.GreetingIsPublished | public/chat.js:69-70 | The greeting passes the server's publish guard. |
| ChatClient.LoadCurrentSession | public/chat.js:45-57 | With a stored history, the last session becomes active and its messages are shown. With none, the page is left alone. |
| ChatClient.LoadSpecificChat | public/chat.js:74-87 | When a session has the name, it becomes active and its messages are shown. Otherwise the page is left alone. |
| ChatClient.DeleteChatSession | public/chat.js:90-97 | The stored history becomes the stored list, or the empty list, with every session of that name filtered out. After the delete, nothing is found under the name and other names find what they found before. The active name, the screen and the input box are unchanged. |
| ChatClient.MessageThenReopen | public/chat.js:9 | Reopening the active session after a message arrives shows its previous messages followed by that message. |
| ChatClient.NewChatThenMessage | public/chat.js:60-71 | After a new chat, the next message lands in the new session when its name is new. When an earlier session already has the name, the message goes to that earlier session. |
| ChatClient.NewChatThenReload | public/chat.js:45-57 | Reloading right after a new chat reopens that new, empty chat. |
| ChatClient.DeleteActiveThenMessage | public/chat.js:90-97 | Deleting the active session keeps it active. The next message re-creates it at the end of the history, holding only that message. |
| ChatClient.PublishedBy | app.js:72-73 | One server event publishes at most one message, and the hub writes exactly that message's frame. |
| ChatClient.ReceivedIsFrames | app.js:91 | What a connection is written, joined together, is the frames of the messages published while it is open. |
| ChatClient.OnEvents | public/chat.js:4 | Handling stream events never changes the active session name or the input box. |
| ChatClient.OnMessageEventsShows | public/chat.js:4-9 | Handling one `message` event per message shows those messages, in order, after what was on screen. |
| ChatClient.SubscriberShowsPublished | app.js:85-96 | A page that connects after some history ends up showing exactly the messages published while its stream is open, in order, when none of them holds a line break. |

## Left out

- Express plumbing is not modelled: routing, static files, `chatApp` (sending `chat.html`), the 404 handler, response headers, status codes and `listen`.
- `respondText` is not modelled. It is not routed, and it only writes the constant `hi`.
- `respondJson` is modelled as the object it sends (`Echo.RespondJson`). JSON serialisation and parsing are not modelled.
- Local storage is a value (`Page.stored`), and `JSON.stringify` and `JSON.parse` round-trip it unchanged.
  - A stored empty string is read as `[]` by the `|| "[]"` fallback. The model only distinguishes a present list from an absent key.
  - Corrupt stored JSON, which makes `JSON.parse` throw, is not modelled.
- ChatClient.OnMessage: assumes `localStorage.setItem` succeeds. When it throws (storage full or disabled), the message is shown but not stored. That path is the separate `ChatClient.OnMessageUnsaved`.
- ChatClient.NewChat: assumes `localStorage.setItem` succeeds. When it throws, the new name is active but not stored, the screen is not cleared and no greeting is sent. That path is the separate `ChatClient.NewChatUnsaved`.
- ChatClient.DeleteChatSession: assumes `localStorage.setItem` succeeds. When it throws, nothing the model keeps changes, so that path is the identity and is not written out.
- The DOM is a list of shown messages.
  - Scrolling, element creation and CSS are not modelled.
  - The navigation bar, the developer menu and the history panel's rendering (`renderHistoryList`, `showFullHistory`) are not modelled.
- `Date.prototype.toLocaleString` is locale-dependent library behaviour. The formatted time is a parameter of `ChatClient.NewChat`.
- Echo.RespondEcho: `toUpperCase` is a function parameter, because Unicode case mapping is library data. The contract says only that `shouty` is that function applied to `normal`.
- Echo.RespondEcho: the `input` query value is either absent or a single string. With `?input=a&input=b` or `?input[x]=y`, Express's query parser gives an array or an object. `input.toUpperCase()` then throws a TypeError, and Express answers with status 500. That error path is not modelled.
- Broadcast.RespondChat: a query value is either absent or a single string. Express's query parser turns a repeated key (`?message=a&message=b`) into an array, and `trim` then throws. That path is not modelled.
- ChatClient.Submit: the model assumes the server decodes exactly the text the page encoded.
  - The request is modelled as the text the server receives.
  - The model assumes percent-encoding and decoding undo each other on well-formed text.
  - Network failure of `fetch`, which is asynchronous, is not modelled.
- The wire encoding is not modelled. The stream is UTF-8, and a lone surrogate in a published message would reach the page as U+FFFD. The model reads the stream as code units.
- The event-stream reader handles only the `data` and `event` fields.
  - The `id` and `retry` fields, reconnection and the last-event-id are not modelled. The server writes such a field only inside a published message that holds a line break, such as `a\nid: 1` or `a\nretry: 0`. The model's reader ignores those lines.
- Write failures on a closed socket are not modelled.
  - A connection's log is what the listener wrote, whether or not the bytes arrived.
  - `EventEmitter`'s max-listeners warning is not modelled: it is only a console message.
- Concurrency is not modelled beyond the event loop: each handler is one atomic step, and so is each close.
- The client and the server are separate state machines.
  - `ChatClient.SubscriberShowsPublished` joins them for one page that only receives.
  - Several pages interleaving their own submissions are not modelled as one system.

=== FILE: broadcast.dfy ===
/**
 The server's broadcast hub: one process-wide emitter (`chatEmitter`) holding one
 `message` listener per open Server-Sent-Events connection. Each listener is
 modelled by the id of its connection; what the listener writes to its response
 is kept as that connection's output log, one entry per `res.write`.

 Handlers run to completion one at a time on Node's event loop, so each of the
 three events (a connection opens, a chat message arrives, a connection closes)
 is one atomic step of the state machine below.
 */
module Broadcast {
  import opened Wrappers
  import opened JsText
  import opened EventStream

  /** One streaming connection, standing for its own `onMessage` closure. */
  type ConnId = nat

  /**
   `listeners`: the emitter's listener array for `message`, in registration order.
   `logs`: every frame written to each connection that was ever opened.
   `nextId`: the next connection to open (each gets a fresh closure).
   */
  datatype Hub = Hub(listeners: seq<ConnId>, logs: map<ConnId, seq<JsString>>, nextId: ConnId)

  /** The hub at process start: a new emitter with no listeners. */
  const Started: Hub := Hub([], map[], 0)

  ghost predicate Distinct(s: seq<ConnId>) {
    forall i, j | 0 <= i < j < |s| :: s[i] != s[j]
  }

  /** No closure is registered twice, every listener writes to a known connection, and ids are fresh. */
  ghost predicate Valid(h: Hub) {
    && Distinct(h.listeners)
    && (forall id | id in h.listeners :: id in h.logs)
    && (forall id | id in h.logs :: id < h.nextId)
  }

  lemma StartedValid()
    ensures Valid(Started)
  {
  }

  /** The position of the last registration of `id`, or -1; the search `removeListener` makes from the end. */
  function LastIndexOf(s: seq<ConnId>, id: ConnId): (k: int)
    ensures -1 <= k < |s|
    ensures k == -1 <==> id !in s
    ensures 0 <= k ==> s[k] == id && id !in s[k + 1..]
  {
    if s == [] then -1
    else if s[|s| - 1] == id then |s| - 1
    else
      var k := LastIndexOf(s[..|s| - 1], id);
      assert s[..|s| - 1] + [s[|s| - 1]] == s;
      assert 0 <= k ==> s[k + 1..] == s[..|s| - 1][k + 1..] + [s[|s| - 1]];
      k
  }

  /** `chatEmitter.off('message', onMessage)`: drop the last registration of `id`, if any. */
  function RemoveListener(s: seq<ConnId>, id: ConnId): (r: seq<ConnId>)
    ensures id !in s ==> r == s
    ensures id in s ==> |r| == |s| - 1
    ensures forall x | x != id :: x in r <==> x in s
  {
    var k := LastIndexOf(s, id);
    if k == -1 then s
    else
      assert forall x | x in s && x != id :: x in s[..k] + s[k + 1..] by {
        forall x | x in s && x != id
          ensures x in s[..k] + s[k + 1..]
        {
          var j :| 0 <= j < |s| && s[j] == x;
          if j < k {
            assert s[..k][j] == x;
          } else {
            assert s[k + 1..][j - k - 1] == x;
          }
        }
      }
      s[..k] + s[k + 1..]
  }

  /** The listener array without any registration of `id`, order kept: the reference for removal. */
  function Without(s: seq<ConnId>, id: ConnId): (r: seq<ConnId>)
    ensures id !in r
    ensures forall x | x != id :: x in r <==> x in s
  {
    if s == [] then []
    else if s[0] == id then Without(s[1..], id)
    else [s[0]] + Without(s[1..], id)
  }

  /** With no duplicate registrations, removing the last one removes them all, keeping the others in order. */
  lemma {:induction false} RemoveListenerIsWithout(s: seq<ConnId>, id: ConnId)
    requires Distinct(s)
    ensures RemoveListener(s, id) == Without(s, id)
  {
    if s != [] {
      DistinctTail(s);
      if s[0] == id {
        LastIndexUnique(s, id, 0);
        WithoutOfAbsent(s[1..], id);
      } else {
        RemoveListenerIsWithout(s[1..], id);
        RemoveListenerCons(s, id);
      }
    }
  }

  /** Removing a registration that is not the first one keeps the first one in front. */
  lemma RemoveListenerCons(s: seq<ConnId>, id: ConnId)
    requires s != [] && s[0] != id
    ensures RemoveListener(s, id) == [s[0]] + RemoveListener(s[1..], id)
  {
    var k := LastIndexOf(s, id);
    if k == -1 {
      assert id !in s[1..];
      assert s == [s[0]] + s[1..];
    } else {
      assert s[1..][k - 1] == id && s[1..][k..] == s[k + 1..];
      LastIndexUnique(s[1..], id, k - 1);
      assert RemoveListener(s[1..], id) == s[1..][..k - 1] + s[1..][k..];
      assert RemoveListener(s, id) == s[..k] + s[k + 1..];
      SpliceCons(s, k);
    }
  }

  /** Cutting out position `k >= 1` commutes with taking the first element off. */
  lemma SpliceCons(s: seq<ConnId>, k: nat)
    requires 1 <= k < |s|
    ensures s[..k] + s[k + 1..] == [s[0]] + (s[1..][..k - 1] + s[1..][k..])
  {
    assert s[..k] == [s[0]] + s[1..][..k - 1];
    assert s[k + 1..] == s[1..][k..];
  }

  /** The last occurrence is the only position holding `id` with no `id` after it. */
  lemma {:induction false} LastIndexUnique(s: seq<ConnId>, id: ConnId, j: nat)
    requires j < |s| && s[j] == id && id !in s[j + 1..]
    ensures LastIndexOf(s, id) == j
  {
    if j < |s| - 1 {
      assert s[|s| - 1] == s[j + 1..][|s| - 2 - j];
      var p := s[..|s| - 1];
      assert p[j + 1..] == s[j + 1..|s| - 1];
      LastIndexUnique(p, id, j);
    }
  }

  lemma DistinctTail(s: seq<ConnId>)
    requires Distinct(s) && s != []
    ensures Distinct(s[1..]) && s[0] !in s[1..]
  {
    forall j | 0 <= j < |s[1..]|
      ensures s[1..][j] != s[0]
    {
      assert s[1..][j] == s[j + 1];
    }
  }

  lemma DistinctAppend(s: seq<ConnId>, x: ConnId)
    requires Distinct(s) && x !in s
    ensures Distinct(s + [x])
  {
  }

  /**
   One pass of `emit` over a snapshot of the listener array: each listener in
   the snapshot writes `frame` to its own connection, once.
   */
  function Deliver(logs: map<ConnId, seq<JsString>>, snapshot: seq<ConnId>, frame: JsString): (r: map<ConnId, seq<JsString>>)
    requires forall id | id in snapshot :: id in logs
    requires Distinct(snapshot)
    ensures r.Keys == logs.Keys
    ensures forall id | id in logs :: r[id] == if id in snapshot then logs[id] + [frame] else logs[id]
    decreases |snapshot|
  {
    if snapshot == [] then logs
    else
      var id := snapshot[0];
      DistinctTail(snapshot);
      Deliver(logs[id := logs[id] + [frame]], snapshot[1..], frame)
  }

  /** `chatEmitter.emit('message', m)`: every registered connection receives the frame of `m`, nobody else anything. */
  function Emit(h: Hub, m: JsString): (r: Hub)
    requires Valid(h)
    ensures Valid(r)
    ensures r.listeners == h.listeners && r.nextId == h.nextId
    ensures r.logs.Keys == h.logs.Keys
    ensures forall id | id in h.listeners :: r.logs[id] == h.logs[id] + [Frame(m)]
    ensures forall id | id in h.logs && id !in h.listeners :: r.logs[id] == h.logs[id]
  {
    h.(logs := Deliver(h.logs, h.listeners, Frame(m)))
  }

  /** The guard of `respondChat`: the query carries a message that is truthy and not blank once trimmed. */
  predicate ShouldPublish(message: Option<JsString>) {
    message.Some? && message.value != [] && Trim(message.value) != []
  }

  /** A message is published exactly when it is present and not made of whitespace only. */
  lemma ShouldPublishIffNotBlank(message: Option<JsString>)
    ensures ShouldPublish(message) <==> message.Some? && !IsBlank(message.value)
  {
    if message.Some? {
      TrimEmptyIffBlank(message.value);
    }
  }

  /** What a request handler does to its response. */
  datatype Response = Streaming | Ended(body: JsString)

  /**
   `respondChat`: publish the query's `message`, untrimmed, when the guard
   passes; end the response with an empty body either way.
   */
  function RespondChat(h: Hub, message: Option<JsString>): (r: (Hub, Response))
    requires Valid(h)
    ensures Valid(r.0)
    ensures r.1 == Ended([])
    ensures r.0.listeners == h.listeners && r.0.nextId == h.nextId && r.0.logs.Keys == h.logs.Keys
    ensures forall id | id in h.logs ::
      r.0.logs[id] == h.logs[id] + if ShouldPublish(message) && id in h.listeners then [Frame(message.value)] else []
    ensures !ShouldPublish(message) ==> r.0 == h
  {
    if ShouldPublish(message) then (Emit(h, message.value), Ended([])) else (h, Ended([]))
  }

  /** `respondSSE`: open a stream for a fresh connection and register its listener at the end of the array. */
  function RespondSSE(h: Hub): (r: (Hub, ConnId, Response))
    requires Valid(h)
    ensures Valid(r.0)
    ensures r.1 !in h.logs && r.1 !in h.listeners
    ensures r.0.listeners == h.listeners + [r.1]
    ensures r.0.logs.Keys == h.logs.Keys + {r.1} && r.0.logs[r.1] == []
    ensures forall id | id in h.logs :: r.0.logs[id] == h.logs[id]
    ensures r.2 == Streaming
  {
    var id := h.nextId;
    DistinctAppend(h.listeners, id);
    (Hub(h.listeners + [id], h.logs[id := []], id + 1), id, Streaming)
  }

  /** The `close` handler of connection `id`: deregister its listener; nothing else changes. */
  function OnClose(h: Hub, id: ConnId): (r: Hub)
    requires Valid(h)
    ensures Valid(r)
    ensures r.logs == h.logs && r.nextId == h.nextId
    ensures id !in r.listeners
    ensures forall x | x != id :: x in r.listeners <==> x in h.listeners
    ensures id in h.listeners ==> |r.listeners| == |h.listeners| - 1
    ensures id !in h.listeners ==> r == h
  {
    RemoveListenerIsWithout(h.listeners, id);
    var r := h.(listeners := RemoveListener(h.listeners, id));
    assert Distinct(r.listeners) by {
      WithoutKeepsDistinct(h.listeners, id);
    }
    r
  }

  lemma {:induction false} WithoutKeepsDistinct(s: seq<ConnId>, id: ConnId)
    requires Distinct(s)
    ensures Distinct(Without(s, id))
  {
    if s != [] {
      DistinctTail(s);
      WithoutKeepsDistinct(s[1..], id);
      if s[0] != id {
        var w := Without(s[1..], id);
        assert s[0] !in w;
        forall i, j | 0 <= i < j < |[s[0]] + w|
          ensures ([s[0]] + w)[i] != ([s[0]] + w)[j]
        {
          if i == 0 {
            assert ([s[0]] + w)[j] == w[j - 1];
          } else {
            assert ([s[0]] + w)[i] == w[i - 1] && ([s[0]] + w)[j] == w[j - 1];
          }
        }
      }
    }
  }

  /** Closing a connection twice is the same as closing it once. */
  lemma CloseIdempotent(h: Hub, id: ConnId)
    requires Valid(h)
    ensures OnClose(OnClose(h, id), id) == OnClose(h, id)
  {
  }

  /** Closing a connection right after opening it gives back the listener array and the other logs. */
  lemma ConnectThenClose(h: Hub)
    requires Valid(h)
    ensures var (h1, id, _) := RespondSSE(h);
      && OnClose(h1, id).listeners == h.listeners
      && OnClose(h1, id).logs == h.logs[id := []]
  {
    var (h1, id, _) := RespondSSE(h);
    RemoveListenerIsWithout(h1.listeners, id);
    WithoutOfAbsent(h.listeners, id);
    WithoutAppend(h.listeners, [id], id);
  }

  lemma {:induction false} WithoutOfAbsent(s: seq<ConnId>, id: ConnId)
    requires id !in s
    ensures Without(s, id) == s
  {
    if s != [] {
      WithoutOfAbsent(s[1..], id);
    }
  }

  lemma {:induction false} WithoutAppend(a: seq<ConnId>, b: seq<ConnId>, id: ConnId)
    ensures Without(a + b, id) == Without(a, id) + Without(b, id)
  {
    if a != [] {
      assert (a + b)[1..] == a[1..] + b;
      WithoutAppend(a[1..], b, id);
    } else {
      assert a + b == b;
    }
  }

  /** The three things that happen to the server. */
  datatype HubEvent = Connect | Publish(message: Option<JsString>) | Close(id: ConnId)

  function Step(h: Hub, e: HubEvent): (r: Hub)
    requires Valid(h)
    ensures Valid(r)
  {
    match e
    case Connect => RespondSSE(h).0
    case Publish(message) => RespondChat(h, message).0
    case Close(id) => OnClose(h, id)
  }

  function Run(h: Hub, events: seq<HubEvent>): (r: Hub)
    requires Valid(h)
    ensures Valid(r)
    decreases |events|
  {
    if events == [] then h else Run(Step(h, events[0]), events[1..])
  }

  lemma {:induction false} RunAppend(h: Hub, a: seq<HubEvent>, b: seq<HubEvent>)
    requires Valid(h)
    ensures Run(h, a + b) == Run(Run(h, a), b)
    decreases |a|
  {
    if a == [] {
      assert a + b == b;
    } else {
      assert (a + b)[0] == a[0] && (a + b)[1..] == a[1..] + b;
      RunAppend(Step(h, a[0]), a[1..], b);
    }
  }

  /** The frames one event writes to a connection that is registered when it happens. */
  function Sent(e: HubEvent): seq<JsString> {
    match e
    case Publish(message) => if ShouldPublish(message) then [Frame(message.value)] else []
    case _ => []
  }

  /** One step seen from a registered connection: its log grows by `Sent(e)`; only its own close deregisters it. */
  lemma StepOpen(h: Hub, e: HubEvent, id: ConnId)
    requires Valid(h) && id in h.listeners
    ensures id in Step(h, e).logs && Step(h, e).logs[id] == h.logs[id] + Sent(e)
    ensures id in Step(h, e).listeners <==> e != Close(id)
  {
  }

  /** One step seen from a closed connection: nothing changes for it. */
  lemma StepClosed(h: Hub, e: HubEvent, id: ConnId)
    requires Valid(h) && id in h.logs && id !in h.listeners
    ensures id in Step(h, e).logs && Step(h, e).logs[id] == h.logs[id]
    ensures id !in Step(h, e).listeners
  {
  }

  /** The frames a registered connection `id` is sent by `events`: one per published message until `id` closes. */
  function Received(events: seq<HubEvent>, id: ConnId): seq<JsString>
    decreases |events|
  {
    if events == [] then []
    else if events[0] == Close(id) then []
    else Sent(events[0]) + Received(events[1..], id)
  }

  /** A connection that has closed is never written to again: no id is reused. */
  lemma {:induction false} ClosedLogFrozen(h: Hub, events: seq<HubEvent>, id: ConnId)
    requires Valid(h) && id in h.logs && id !in h.listeners
    ensures id in Run(h, events).logs && Run(h, events).logs[id] == h.logs[id]
    decreases |events|
  {
    if events != [] {
      StepClosed(h, events[0], id);
      ClosedLogFrozen(Step(h, events[0]), events[1..], id);
    }
  }

  /** A registered connection's log grows by exactly the frames of the messages published while it stays open, in order. */
  lemma {:induction false} OpenLogGrows(h: Hub, events: seq<HubEvent>, id: ConnId)
    requires Valid(h) && id in h.listeners
    ensures id in Run(h, events).logs && Run(h, events).logs[id] == h.logs[id] + Received(events, id)
    decreases |events|
  {
    if events != [] {
      var h1 := Step(h, events[0]);
      StepOpen(h, events[0], id);
      assert Run(h, events) == Run(h1, events[1..]);
      if events[0] == Close(id) {
        ClosedLogFrozen(h1, events[1..], id);
      } else {
        OpenLogGrows(h1, events[1..], id);
        assert Received(events, id) == Sent(events[0]) + Received(events[1..], id);
        ConcatAssoc(h.logs[id], Sent(events[0]), Received(events[1..], id));
      }
    }
  }

  lemma ConcatAssoc(a: seq<JsString>, b: seq<JsString>, c: seq<JsString>)
    ensures (a + b) + c == a + (b + c)
  {
  }

  /**
   No history is kept: a connection opened after `before` receives exactly the
   frames published after it connected and until it closes, and nothing
   published earlier.
   */
  lemma LateSubscriber(h: Hub, before: seq<HubEvent>, after: seq<HubEvent>)
    requires Valid(h)
    ensures var id := Run(h, before).nextId;
      && id in Run(h, before + [Connect] + after).logs
      && Run(h, before + [Connect] + after).logs[id] == Received(after, id)
  {
    var h1 := Run(h, before);
    var id := h1.nextId;
    RunAppend(h, before + [Connect], after);
    RunAppend(h, before, [Connect]);
    var h2 := Run(h1, [Connect]);
    assert h2 == RespondSSE(h1).0;
    OpenLogGrows(h2, after, id);
  }
}

=== FILE: chat_client.dfy ===
/**
 The chat page: what it keeps between events (the stored history, the active
 session name, the messages on screen and the input box) and how each handler
 of the page changes it.
 */
module ChatClient {
  import opened Wrappers
  import opened JsText
  import opened ChatHistory
  import EventStream
  import Broadcast

  /** Local storage's `chatHistory`, `window.currentSession`, the messages on screen, and the input box. */
  datatype Page = Page(stored: Option<History>, current: Option<JsString>, shown: seq<JsString>, input: JsString)

  /** The message a new chat sends to the server. */
  const Greeting: JsString := Str("Hi there, chat with me")

  /**
   The `onmessage` handler: the message is shown and saved under the active
   session, which then holds what it held before followed by the message.
   */
  function OnMessage(p: Page, data: JsString): (r: Page)
    ensures r.shown == p.shown + [data]
    ensures r.current == p.current && r.input == p.input
    ensures r.stored == Some(SaveMessage(ReadHistory(p.stored), ActiveName(p.current), data))
    ensures var name := ActiveName(p.current);
      Find(r.stored.value, name) == Some(Session(name, MessagesOf(ReadHistory(p.stored), name) + [data]))
    ensures TotalMessages(r.stored.value) == TotalMessages(ReadHistory(p.stored)) + 1
  {
    var name := ActiveName(p.current);
    var h := ReadHistory(p.stored);
    SaveThenFind(h, name, data);
    SaveAddsOne(h, name, data);
    p.(stored := Some(SaveMessage(h, name, data)), shown := p.shown + [data])
  }

  /**
   The `onmessage` handler when `localStorage.setItem` throws (storage full or
   disabled): the message is already on screen, but the stored history is the
   one from before, so the only difference from a saving handler is `stored`.
   */
  function OnMessageUnsaved(p: Page, data: JsString): (r: Page)
    ensures r == OnMessage(p, data).(stored := p.stored)
    ensures r.shown == p.shown + [data]
  {
    p.(shown := p.shown + [data])
  }

  /** What a submit does with the input: nothing, a request carrying a message, or an exception. */
  datatype Submitted = NotSent | Requested(message: JsString) | Threw

  /**
   The form's `submit` handler: a blank input sends nothing; otherwise the
   trimmed input is sent and the box cleared, unless `encodeURIComponent`
   throws on a lone surrogate, which leaves the page as it was.
   */
  function Submit(p: Page): (r: (Page, Submitted))
    ensures r.1 == NotSent <==> IsBlank(p.input)
    ensures r.1.Requested? <==> !IsBlank(p.input) && IsWellFormed(Trim(p.input))
    ensures r.1.Requested? ==> r.1.message == Trim(p.input) && r.0 == p.(input := [])
    ensures !r.1.Requested? ==> r.0 == p
  {
    var text := Trim(p.input);
    TrimEmptyIffBlank(p.input);
    if text == [] then (p, NotSent)
    else if !IsWellFormed(text) then (p, Threw)
    else (p.(input := []), Requested(text))
  }

  /** Whatever a submit sends passes the server's publish guard and is already trimmed. */
  lemma SubmittedIsPublished(p: Page)
    ensures var r := Submit(p).1;
      r.Requested? ==> Broadcast.ShouldPublish(Some(r.message)) && Trim(r.message) == r.message
  {
    TrimIdempotent(p.input);
  }

  /** The session name `createNewChat` builds from the formatted time: `Chat (<time>)`. */
  function NewChatName(time: JsString): (name: JsString)
    ensures |name| == |time| + 7
    ensures name[..6] == Str("Chat (") && name[6..6 + |time|] == time && name[|name| - 1] as int == ')' as int
  {
    Str("Chat (") + time + Str(")")
  }

  /**
   `createNewChat`: an empty session named after the time is added at the end
   and made active, the screen is cleared, and the greeting is sent.
   */
  function NewChat(p: Page, time: JsString): (r: (Page, JsString))
    ensures r.0.current == Some(NewChatName(time))
    ensures r.0.stored == Some(CreateSession(ReadHistory(p.stored), NewChatName(time)))
    ensures r.0.shown == [] && r.0.input == p.input
    ensures r.1 == Greeting
  {
    var name := NewChatName(time);
    (p.(current := Some(name), stored := Some(CreateSession(ReadHistory(p.stored), name)), shown := []), Greeting)
  }

  /**
   `createNewChat` when `localStorage.setItem` throws: the new name is already
   active, but nothing is stored, the screen is not cleared and no greeting is
   sent. Only the active name agrees with a successful new chat.
   */
  function NewChatUnsaved(p: Page, time: JsString): (r: Page)
    ensures r.current == NewChat(p, time).0.current
    ensures r.stored == p.stored && r.shown == p.shown && r.input == p.input
  {
    p.(current := Some(NewChatName(time)))
  }

  /**
   After a new chat whose write failed, the next message creates the new
   session itself when its name is new: the message is saved under that name.
   */
  lemma NewChatUnsavedThenMessage(p: Page, time: JsString, data: JsString)
    ensures var name := NewChatName(time);
      var h := ReadHistory(p.stored);
      var r := OnMessage(NewChatUnsaved(p, time), data);
      && (Find(h, name).None? ==> r.stored == Some(h + [Session(name, [data])]))
      && Find(r.stored.value, name) == Some(Session(name, MessagesOf(h, name) + [data]))
  {
    var name := NewChatName(time);
    var h := ReadHistory(p.stored);
    var q := NewChatUnsaved(p, time);
    assert ActiveName(q.current) == name;
    assert ReadHistory(q.stored) == h;
  }

  /** The greeting passes the server's publish guard. */
  lemma GreetingIsPublished()
    ensures Broadcast.ShouldPublish(Some(Greeting))
  {
    assert Greeting[0] as int == 'H' as int;
    assert Greeting[|Greeting| - 1] as int == 'e' as int;
    TrimOfTrimmed(Greeting);
  }

  /**
   `loadCurrentSession`: with a stored history, the last session becomes
   active and its messages are shown; with none, the page is left alone.
   */
  function LoadCurrentSession(p: Page): (r: Page)
    ensures ReadHistory(p.stored) == [] ==> r == p
    ensures ReadHistory(p.stored) != [] ==>
      var last := ReadHistory(p.stored)[|ReadHistory(p.stored)| - 1];
      r == p.(current := Some(last.name), shown := last.messages)
  {
    match Last(ReadHistory(p.stored))
    case None => p
    case Some(last) => p.(current := Some(last.name), shown := last.messages)
  }

  /**
   `loadSpecificChat`: the first session called `name` becomes active and its
   messages are shown; an unknown name leaves the page alone.
   */
  function LoadSpecificChat(p: Page, name: JsString): (r: Page)
    ensures Find(ReadHistory(p.stored), name).None? ==> r == p
    ensures Find(ReadHistory(p.stored), name).Some? ==>
      r == p.(current := Some(name), shown := MessagesOf(ReadHistory(p.stored), name))
  {
    match Find(ReadHistory(p.stored), name)
    case None => p
    case Some(s) => p.(current := Some(s.name), shown := s.messages)
  }

  /**
   `deleteChatSession`: every stored session called `name` is removed. The
   active session name and the messages on screen are left as they are.
   */
  function DeleteChatSession(p: Page, name: JsString): (r: Page)
    ensures r.stored == Some(DeleteSession(ReadHistory(p.stored), name))
    ensures Find(r.stored.value, name).None?
    ensures forall other | other != name :: Find(r.stored.value, other) == Find(ReadHistory(p.stored), other)
    ensures r.current == p.current && r.shown == p.shown && r.input == p.input
  {
    var h := ReadHistory(p.stored);
    DeleteThenFind(h, name);
    forall other | other != name
      ensures Find(DeleteSession(h, name), other) == Find(h, other)
    {
      DeleteKeepsOthers(h, name, other);
    }
    p.(stored := Some(DeleteSession(h, name)))
  }

  /** Reopening the active session after a message arrives shows what it held before and then that message. */
  lemma MessageThenReopen(p: Page, data: JsString)
    ensures var name := ActiveName(p.current);
      LoadSpecificChat(OnMessage(p, data), name).shown == MessagesOf(ReadHistory(p.stored), name) + [data]
  {
    var name := ActiveName(p.current);
    var r := OnMessage(p, data);
    assert MessagesOf(ReadHistory(r.stored), name) == MessagesOf(ReadHistory(p.stored), name) + [data];
  }

  /**
   After a new chat, the next message lands in the new session when its name
   is new; when an earlier session already has that name, the message goes to
   the earlier session and the new one stays empty.
   */
  lemma NewChatThenMessage(p: Page, time: JsString, data: JsString)
    ensures var name := NewChatName(time);
      var h := ReadHistory(p.stored);
      var r := OnMessage(NewChat(p, time).0, data);
      && (Find(h, name).None? ==> Find(r.stored.value, name) == Some(Session(name, [data])))
      && (Find(h, name).Some? ==> MessagesOf(r.stored.value, name) == MessagesOf(h, name) + [data])
  {
    var name := NewChatName(time);
    var h := ReadHistory(p.stored);
    var q := NewChat(p, time).0;
    assert ActiveName(q.current) == name;
    CreateThenFind(h, name);
    if Find(h, name).None? {
      assert MessagesOf(ReadHistory(q.stored), name) + [data] == [data];
    }
  }

  /** Reloading right after a new chat reopens that new, empty chat. */
  lemma NewChatThenReload(p: Page, time: JsString)
    ensures LoadCurrentSession(NewChat(p, time).0) == NewChat(p, time).0
  {
  }

  /**
   Deleting the active session does not switch away from it: the next message
   re-creates it, at the end of the history, holding only that message.
   */
  lemma DeleteActiveThenMessage(p: Page, data: JsString)
    ensures var name := ActiveName(p.current);
      var r := OnMessage(DeleteChatSession(p, name), data);
      && Find(r.stored.value, name) == Some(Session(name, [data]))
      && Last(r.stored.value) == Some(Session(name, [data]))
  {
    var name := ActiveName(p.current);
    var q := DeleteChatSession(p, name);
    var h := ReadHistory(q.stored);
    assert MessagesOf(h, name) + [data] == [data];
  }

  /** Concatenation of the frames written to one response. */
  function Join(frames: seq<JsString>): JsString {
    if frames == [] then [] else frames[0] + Join(frames[1..])
  }

  /** The message one hub event publishes, if it publishes one; the hub writes exactly its frame. */
  function PublishedBy(e: Broadcast.HubEvent): (ms: seq<JsString>)
    ensures |ms| <= 1
    ensures Broadcast.Sent(e) == if ms == [] then [] else [EventStream.Frame(ms[0])]
  {
    match e
    case Publish(m) => if Broadcast.ShouldPublish(m) then [m.value] else []
    case _ => []
  }

  /** The messages the hub publishes while connection `id` is open, in order. */
  function Published(events: seq<Broadcast.HubEvent>, id: Broadcast.ConnId): seq<JsString>
    decreases |events|
  {
    if events == [] || events[0] == Broadcast.Close(id) then []
    else PublishedBy(events[0]) + Published(events[1..], id)
  }

  /** Joining frames, the first of which are one event's output, splits after that output. */
  lemma JoinFront(ms: seq<JsString>, rest: seq<JsString>, frames: seq<JsString>)
    requires |ms| <= 1
    requires frames == if ms == [] then [] else [EventStream.Frame(ms[0])]
    ensures Join(frames + rest) == EventStream.Frames(ms) + Join(rest)
  {
    if ms == [] {
      assert frames + rest == rest;
    } else {
      assert (frames + rest)[1..] == rest;
      assert EventStream.Frames(ms) == EventStream.Frame(ms[0]) + EventStream.Frames([]);
    }
  }

  /** The frames of at most one message followed by others are that frame followed by theirs. */
  lemma FramesFront(ms: seq<JsString>, rest: seq<JsString>)
    requires |ms| <= 1
    ensures EventStream.Frames(ms + rest) == EventStream.Frames(ms) + EventStream.Frames(rest)
  {
    if ms == [] {
      assert ms + rest == rest;
    } else {
      assert ms == [ms[0]];
      EventStream.FramesCons(ms[0], rest);
      EventStream.FramesCons(ms[0], []);
      assert [ms[0]] + [] == [ms[0]];
    }
  }

  /** What a connection is written is the frames of the messages published while it is open. */
  lemma {:induction false} ReceivedIsFrames(events: seq<Broadcast.HubEvent>, id: Broadcast.ConnId)
    ensures Join(Broadcast.Received(events, id)) == EventStream.Frames(Published(events, id))
    decreases |events|
  {
    if events != [] && events[0] != Broadcast.Close(id) {
      ReceivedIsFrames(events[1..], id);
      var ms := PublishedBy(events[0]);
      var rest := Published(events[1..], id);
      JoinFront(ms, Broadcast.Received(events[1..], id), Broadcast.Sent(events[0]));
      FramesFront(ms, rest);
    }
  }

  /** The page's `onmessage` handler run over the events its `EventSource` dispatches; it fires for type `message` only. */
  function OnEvents(p: Page, events: seq<EventStream.Event>): (r: Page)
    ensures r.current == p.current && r.input == p.input
    decreases |events|
  {
    if events == [] then p
    else
      var q := if events[0].eventType == EventStream.MessageType then OnMessage(p, events[0].data) else p;
      OnEvents(q, events[1..])
  }

  /** A `message` event at the front is handled by `onmessage`, then the rest follow. */
  lemma OnEventsFront(p: Page, m: JsString, events: seq<EventStream.Event>)
    ensures OnEvents(p, [EventStream.Event(EventStream.MessageType, m)] + events) == OnEvents(OnMessage(p, m), events)
  {
    var all := [EventStream.Event(EventStream.MessageType, m)] + events;
    assert all[0].eventType == EventStream.MessageType && all[0].data == m;
    assert all[1..] == events;
  }

  /** Handling one `message` event per message shows those messages, in order, after what was on screen. */
  lemma {:induction false} OnMessageEventsShows(p: Page, ms: seq<JsString>)
    ensures OnEvents(p, EventStream.MessageEvents(ms)).shown == p.shown + ms
    decreases |ms|
  {
    if ms != [] {
      var q := OnMessage(p, ms[0]);
      assert EventStream.MessageEvents(ms) == [EventStream.Event(EventStream.MessageType, ms[0])] + EventStream.MessageEvents(ms[1..]);
      OnEventsFront(p, ms[0], EventStream.MessageEvents(ms[1..]));
      OnMessageEventsShows(q, ms[1..]);
      assert q.shown + ms[1..] == p.shown + ms;
    }
  }

  /**
   End to end: a page that connects after the hub has handled `before` ends up
   showing exactly the messages published while its stream is open, in order,
   as long as none of them holds a line break.
   */
  lemma SubscriberShowsPublished(h: Broadcast.Hub, before: seq<Broadcast.HubEvent>, after: seq<Broadcast.HubEvent>, p: Page)
    requires Broadcast.Valid(h)
    requires var id := Broadcast.Run(h, before).nextId;
      forall i | 0 <= i < |Published(after, id)| :: HasNoLineBreak(Published(after, id)[i])
    ensures var id := Broadcast.Run(h, before).nextId;
      var hub := Broadcast.Run(h, before + [Broadcast.Connect] + after);
      && id in hub.logs
      && OnEvents(p, EventStream.Interpret(Join(hub.logs[id]))).shown == p.shown + Published(after, id)
  {
    var id := Broadcast.Run(h, before).nextId;
    Broadcast.LateSubscriber(h, before, after);
    ReceivedIsFrames(after, id);
    EventStream.StreamRoundTrip(Published(after, id));
    OnMessageEventsShows(p, Published(after, id));
  }
}

=== FILE: chat_history.dfy ===
/**
 The chat history the page keeps in local storage under `chatHistory`: a list
 of named sessions, each with the messages received while it was active.
 */
module ChatHistory {
  import opened Wrappers
  import opened JsText

  /** One stored session: `{ session: name, messages: [...] }`. */
  datatype Session = Session(name: JsString, messages: seq<JsString>)

  type History = seq<Session>

  /** The session name used while no session has been chosen. */
  const DefaultName: JsString := Str("Chat")

  /** `getChatHistory`: the stored list, or the empty list when nothing is stored. */
  function ReadHistory(stored: Option<History>): (h: History)
    ensures stored.None? ==> h == []
    ensures stored.Some? ==> h == stored.value
  {
    stored.GetOr([])
  }

  /** `window.currentSession || "Chat"`: an unset or empty session name falls back to `Chat`. */
  function ActiveName(current: Option<JsString>): (name: JsString)
    ensures name != []
    ensures current.Some? && current.value != [] ==> name == current.value
    ensures current.None? || current.value == [] ==> name == DefaultName
  {
    if current.Some? && current.value != [] then current.value else DefaultName
  }

  /** `findIndex` by session name: the first position holding `name`, or -1. */
  function FindIndex(h: History, name: JsString): (k: int)
    ensures -1 <= k < |h|
    ensures k == -1 <==> forall i | 0 <= i < |h| :: h[i].name != name
    ensures k != -1 ==> h[k].name == name && forall i | 0 <= i < k :: h[i].name != name
  {
    if h == [] then -1
    else if h[0].name == name then 0
    else
      var k := FindIndex(h[1..], name);
      if k == -1 then -1 else k + 1
  }

  /** `find` by session name: the first session called `name`, if any. */
  function Find(h: History, name: JsString): (r: Option<Session>)
    ensures r.None? <==> forall i | 0 <= i < |h| :: h[i].name != name
    ensures r.Some? ==> r.value.name == name
    ensures r.Some? ==> exists k | 0 <= k < |h| :: h[k] == r.value && forall i | 0 <= i < k :: h[i].name != name
  {
    var k := FindIndex(h, name);
    if k == -1 then None else Some(h[k])
  }

  /** The messages stored under `name`, or none when no session has that name. */
  function MessagesOf(h: History, name: JsString): seq<JsString> {
    match Find(h, name)
    case Some(s) => s.messages
    case None => []
  }

  /** The most recent session: the last one in the list. */
  function Last(h: History): (r: Option<Session>)
    ensures r.None? <==> h == []
    ensures r.Some? ==> r.value == h[|h| - 1]
  {
    if h == [] then None else Some(h[|h| - 1])
  }

  /** How many messages the history holds across all sessions. */
  function TotalMessages(h: History): nat {
    if h == [] then 0 else |h[0].messages| + TotalMessages(h[1..])
  }

  /**
   `saveMessageToHistory`: append `message` to the first session called `name`,
   or, when there is none, add a session for it at the end. Every existing
   session keeps its place and name.
   */
  function SaveMessage(h: History, name: JsString, message: JsString): (r: History)
    ensures |r| == |h| <==> Find(h, name).Some?
    ensures |r| == |h| || |r| == |h| + 1
    ensures forall i | 0 <= i < |h| :: r[i].name == h[i].name
    ensures |r| == |h| + 1 ==> r[|h|] == Session(name, [message])
    ensures forall i | 0 <= i < |h| && i != FindIndex(h, name) :: r[i] == h[i]
    ensures var k := FindIndex(h, name);
      k != -1 ==> r[k].messages == h[k].messages + [message]
  {
    var k := FindIndex(h, name);
    if k == -1 then h + [Session(name, [message])]
    else h[k := h[k].(messages := h[k].messages + [message])]
  }

  /** `createNewChat`'s update: a new empty session called `name` goes at the end. */
  function CreateSession(h: History, name: JsString): (r: History)
    ensures |r| == |h| + 1
    ensures r[..|h|] == h
    ensures Last(r) == Some(Session(name, []))
  {
    h + [Session(name, [])]
  }

  /** `deleteChatSession`'s filter: every session called `name` goes; the others stay, in order. */
  function DeleteSession(h: History, name: JsString): (r: History)
    ensures |r| <= |h|
    ensures forall s | s in r :: s in h && s.name != name
    ensures forall s | s in h && s.name != name :: s in r
  {
    if h == [] then []
    else (if h[0].name == name then [] else [h[0]]) + DeleteSession(h[1..], name)
  }

  /** After saving, the session for `name` holds what it held before followed by the message. */
  lemma SaveThenFind(h: History, name: JsString, message: JsString)
    ensures Find(SaveMessage(h, name, message), name) == Some(Session(name, MessagesOf(h, name) + [message]))
  {
    var r := SaveMessage(h, name, message);
    var k := FindIndex(h, name);
    if k == -1 {
      assert MessagesOf(h, name) + [message] == [message];
      assert r[|h|].name == name;
      assert forall i | 0 <= i < |h| :: r[i] == h[i];
      assert FindIndex(r, name) == |h|;
      assert Find(r, name) == Some(r[|h|]);
      assert r[|h|] == Session(name, [message]);
    } else {
      assert FindIndex(r, name) == k;
    }
  }

  /** Saving under one name changes nothing another name finds. */
  lemma SaveKeepsOthers(h: History, name: JsString, message: JsString, other: JsString)
    requires other != name
    ensures Find(SaveMessage(h, name, message), other) == Find(h, other)
  {
    var r := SaveMessage(h, name, message);
    var j := FindIndex(h, other);
    if FindIndex(h, name) == -1 {
      assert forall i | 0 <= i < |h| :: r[i] == h[i];
      assert r[|h|].name != other;
      assert FindIndex(r, other) == j;
    } else {
      assert forall i | 0 <= i < |h| && h[i].name != name :: r[i] == h[i];
      assert FindIndex(r, other) == j;
    }
  }

  /** The total message count over two lists is the sum of their counts. */
  lemma {:induction false} TotalAppend(a: History, b: History)
    ensures TotalMessages(a + b) == TotalMessages(a) + TotalMessages(b)
    decreases |a|
  {
    if a != [] {
      assert (a + b)[1..] == a[1..] + b;
      TotalAppend(a[1..], b);
    } else {
      assert a + b == b;
    }
  }

  /** Replacing one session changes the total by the difference in its message count. */
  lemma {:induction false} TotalUpdate(h: History, k: nat, s: Session)
    requires k < |h|
    ensures TotalMessages(h[k := s]) + |h[k].messages| == TotalMessages(h) + |s.messages|
    decreases |h|
  {
    if k > 0 {
      assert h[k := s][1..] == h[1..][k - 1 := s];
      TotalUpdate(h[1..], k - 1, s);
    } else {
      assert h[k := s][1..] == h[1..];
    }
  }

  /** Every save stores exactly one more message. */
  lemma SaveAddsOne(h: History, name: JsString, message: JsString)
    ensures TotalMessages(SaveMessage(h, name, message)) == TotalMessages(h) + 1
  {
    var k := FindIndex(h, name);
    if k == -1 {
      TotalAppend(h, [Session(name, [message])]);
      assert [Session(name, [message])][1..] == [];
    } else {
      TotalUpdate(h, k, h[k].(messages := h[k].messages + [message]));
    }
  }

  /**
   A new session is found under its name only if no earlier session has that
   name; otherwise lookups, and so later saves, still reach the earlier one.
   */
  lemma CreateThenFind(h: History, name: JsString)
    ensures Find(h, name).None? ==> Find(CreateSession(h, name), name) == Some(Session(name, []))
    ensures Find(h, name).Some? ==> Find(CreateSession(h, name), name) == Find(h, name)
  {
    var r := CreateSession(h, name);
    assert forall i | 0 <= i < |h| :: r[i] == h[i];
    if Find(h, name).None? {
      assert r[|h|].name == name;
      assert FindIndex(r, name) == |h|;
    } else {
      assert FindIndex(r, name) == FindIndex(h, name);
    }
  }

  /** Creating a session stores no message. */
  lemma CreateKeepsTotal(h: History, name: JsString)
    ensures TotalMessages(CreateSession(h, name)) == TotalMessages(h)
  {
    TotalAppend(h, [Session(name, [])]);
    assert [Session(name, [])][1..] == [];
  }

  /** Deleting distributes over joining two lists: the filter keeps order. */
  lemma {:induction false} DeleteAppend(a: History, b: History, name: JsString)
    ensures DeleteSession(a + b, name) == DeleteSession(a, name) + DeleteSession(b, name)
    decreases |a|
  {
    if a != [] {
      assert (a + b)[1..] == a[1..] + b;
      DeleteAppend(a[1..], b, name);
    } else {
      assert a + b == b;
    }
  }

  /** Deleting a name no session has leaves the history as it is. */
  lemma {:induction false} DeleteAbsent(h: History, name: JsString)
    requires forall i | 0 <= i < |h| :: h[i].name != name
    ensures DeleteSession(h, name) == h
    decreases |h|
  {
    if h != [] {
      assert h[0].name != name;
      DeleteAbsent(h[1..], name);
    }
  }

  /** Deleting the same name twice is deleting it once. */
  lemma DeleteIdempotent(h: History, name: JsString)
    ensures DeleteSession(DeleteSession(h, name), name) == DeleteSession(h, name)
  {
    var r := DeleteSession(h, name);
    assert forall i | 0 <= i < |r| :: r[i] in r;
    DeleteAbsent(r, name);
  }

  /** Looking up in a list that starts with `s`: `s` itself if it has the name, else a lookup in the rest. */
  lemma FindCons(s: Session, t: History, name: JsString)
    ensures Find([s] + t, name) == if s.name == name then Some(s) else Find(t, name)
  {
    var h := [s] + t;
    assert h[1..] == t;
    assert h[0] == s;
  }

  /** After a delete nothing is found under that name. */
  lemma DeleteThenFind(h: History, name: JsString)
    ensures Find(DeleteSession(h, name), name).None?
  {
    var r := DeleteSession(h, name);
    assert forall i | 0 <= i < |r| :: r[i] in r;
  }

  /** A delete changes nothing another name finds. */
  lemma {:induction false} DeleteKeepsOthers(h: History, name: JsString, other: JsString)
    requires other != name
    ensures Find(DeleteSession(h, name), other) == Find(h, other)
    decreases |h|
  {
    if h != [] {
      var rest := DeleteSession(h[1..], name);
      DeleteKeepsOthers(h[1..], name, other);
      assert h == [h[0]] + h[1..];
      FindCons(h[0], h[1..], other);
      if h[0].name == name {
        assert DeleteSession(h, name) == rest;
      } else {
        assert DeleteSession(h, name) == [h[0]] + rest;
        FindCons(h[0], rest, other);
      }
    }
  }

}

=== FILE: echo.dfy ===
/** The server's stateless utility endpoints: `/echo` and the fixed `/json` reply. */
module Echo {
  import opened Wrappers
  import opened JsText

  /** The JSON object `respondEcho` sends. */
  datatype EchoReply = EchoReply(normal: JsString, shouty: JsString, charCount: nat, backwards: JsString)

  /**
   `respondEcho`: the `input` query value (the empty string when absent) as it
   is, upper-cased, its length in code units, and reversed code unit by code
   unit. Upper-casing is library behaviour and is passed in as `toUpperCase`.
   */
  function RespondEcho(input: Option<JsString>, toUpperCase: JsString -> JsString): (r: EchoReply)
    ensures input.Some? ==> r.normal == input.value
    ensures input.None? ==> r.normal == []
    ensures r.shouty == toUpperCase(r.normal)
    ensures r.charCount == |r.normal| == |r.backwards|
    ensures forall i | 0 <= i < |r.normal| :: r.backwards[i] == r.normal[|r.normal| - 1 - i]
  {
    var text := input.GetOr([]);
    EchoReply(text, toUpperCase(text), |text|, Reverse(text))
  }

  /** Reversing `backwards` once more gives back `normal`. */
  lemma BackwardsRoundTrip(input: Option<JsString>, toUpperCase: JsString -> JsString)
    ensures var r := RespondEcho(input, toUpperCase);
      Reverse(r.backwards) == r.normal
  {
    var r := RespondEcho(input, toUpperCase);
    assert Reverse(r.backwards) == Reverse(Reverse(r.normal));
    ReverseInvolution(r.normal);
  }

  /** The object `respondJson` sends. */
  datatype JsonReply = JsonReply(text: JsString, numbers: seq<int>)

  /** `respondJson`: always the same object, `hi` with the numbers one to three in order. */
  function RespondJson(): (r: JsonReply)
    ensures r.text == Str("hi")
    ensures |r.numbers| == 3 && forall i | 0 <= i < |r.numbers| :: r.numbers[i] == i + 1
  {
    JsonReply(Str("hi"), [1, 2, 3])
  }
}

=== FILE: event_stream.dfy ===
/**
 The text/event-stream format of section 9.2 (Server-sent events) of the WHATWG
 HTML Living Standard: the frame the server writes for each chat message, and
 the client-side interpretation of the stream ("Interpreting an event stream",
 section 9.2.6) that turns those frames back into `message` events.
 */
module EventStream {
  import opened Wrappers
  import opened JsText

  const DataField: JsString := Str("data")
  const EventField: JsString := Str("event")
  const MessageType: JsString := Str("message")
  const ByteOrderMark: CodeUnit := 0xFEFF

  /** What the server writes for one chat message: `data: <m>` followed by a blank line. */
  function Frame(m: JsString): (f: JsString)
    ensures |f| == |m| + 8
    ensures f[..6] == Str("data: ")
    ensures f[6..6 + |m|] == m
    ensures f[6 + |m|..] == [LF, LF]
  {
    Str("data: ") + m + Str("\n\n")
  }

  /** Different messages give different frames. */
  lemma FrameInjective(a: JsString, b: JsString)
    ensures Frame(a) == Frame(b) <==> a == b
  {
    if Frame(a) == Frame(b) {
      assert a == Frame(a)[6..6 + |a|];
    }
  }

  /** A dispatched event as the page's `EventSource` sees it. */
  datatype Event = Event(eventType: JsString, data: JsString)

  /** The event type buffer and the data buffer of the parser. */
  datatype Buffers = Buffers(eventType: JsString, data: JsString)

  const Cleared: Buffers := Buffers([], [])

  /** The length of the line at the front of `s`: everything before the first CR or LF. */
  function LineLength(s: JsString): (n: nat)
    ensures n <= |s|
    ensures HasNoLineBreak(s[..n])
    ensures n < |s| ==> IsLineBreak(s[n])
  {
    if s == [] || IsLineBreak(s[0]) then 0
    else
      var n := 1 + LineLength(s[1..]);
      assert s[..n] == [s[0]] + s[1..][..n - 1];
      n
  }

  /** The position of the first colon in `line`, or its length when there is none. */
  function ColonIndex(line: JsString): (k: nat)
    ensures k <= |line|
    ensures Colon !in line[..k]
    ensures k < |line| ==> line[k] == Colon
  {
    if line == [] || line[0] == Colon then 0
    else
      var k := 1 + ColonIndex(line[1..]);
      assert line[..k] == [line[0]] + line[1..][..k - 1];
      k
  }

  /** Process one field: `event` sets the event type, `data` appends a line to the data; others leave both alone. */
  function ProcessField(b: Buffers, name: JsString, value: JsString): (r: Buffers)
    ensures name == DataField ==> r == b.(data := b.data + value + [LF])
    ensures name == EventField ==> r == b.(eventType := value)
    ensures name != DataField && name != EventField ==> r == b
  {
    if name == EventField then b.(eventType := value)
    else if name == DataField then b.(data := b.data + value + [LF])
    else b
  }

  /**
   Dispatch at a blank line: nothing when the data buffer is empty; otherwise one
   event whose data is the buffer minus its final LF and whose type is the event
   type buffer, or `message` when that is empty. Both buffers are cleared.
   */
  function Dispatch(b: Buffers): (r: (Buffers, seq<Event>))
    ensures r.0 == Cleared
    ensures b.data == [] <==> r.1 == []
    ensures r.1 != [] ==>
      && |r.1| == 1
      && r.1[0].eventType == (if b.eventType == [] then MessageType else b.eventType)
      && (b.data[|b.data| - 1] == LF ==> b.data == r.1[0].data + [LF])
      && (b.data[|b.data| - 1] != LF ==> b.data == r.1[0].data)
  {
    if b.data == [] then (Cleared, [])
    else
      var data := if b.data[|b.data| - 1] == LF then b.data[..|b.data| - 1] else b.data;
      (Cleared, [Event(if b.eventType == [] then MessageType else b.eventType, data)])
  }

  /**
   Process one line: a blank line dispatches; a line starting with a colon is a
   comment; otherwise the field name runs up to the first colon and the value
   after it, less one leading space (a line with no colon is a name with an
   empty value).
   */
  function ProcessLine(b: Buffers, line: JsString): (r: (Buffers, seq<Event>))
    ensures |r.1| <= 1
    ensures line != [] ==> r.1 == []
  {
    if line == [] then Dispatch(b)
    else if line[0] == Colon then (b, [])
    else
      var k := ColonIndex(line);
      if k == |line| then (ProcessField(b, line, []), [])
      else
        var value := line[k + 1..];
        var value := if value != [] && value[0] == Space then value[1..] else value;
        (ProcessField(b, line[..k], value), [])
  }

  /**
   The events a stream holds, line by line; a line ends at CRLF, LF or CR. A
   last line with no terminator yet is still pending and yields nothing.
   */
  function Parse(b: Buffers, s: JsString): seq<Event>
    decreases |s|
  {
    var n := LineLength(s);
    if n == |s| then []
    else
      var width := if s[n] == CR && n + 1 < |s| && s[n + 1] == LF then 2 else 1;
      var (b', events) := ProcessLine(b, s[..n]);
      events + Parse(b', s[n + width..])
  }

  /** The whole stream as the client reads it: one leading byte order mark is ignored. */
  function Interpret(stream: JsString): seq<Event> {
    if stream != [] && stream[0] == ByteOrderMark then Parse(Cleared, stream[1..]) else Parse(Cleared, stream)
  }

  /** The line at the front of `p + rest` is `p` when `p` holds no line break and `rest` starts with one. */
  lemma {:induction false} LineLengthOf(p: JsString, rest: JsString)
    requires HasNoLineBreak(p)
    requires rest != [] && IsLineBreak(rest[0])
    ensures LineLength(p + rest) == |p|
  {
    if p != [] {
      assert (p + rest)[1..] == p[1..] + rest;
      LineLengthOf(p[1..], rest);
    } else {
      assert p + rest == rest;
    }
  }

  /** The first line of a frame is the `data` field whose value is the message. */
  lemma DataLine(m: JsString)
    ensures ProcessLine(Cleared, Str("data: ") + m) == (Buffers([], m + [LF]), [])
  {
    var line := Str("data: ") + m;
    assert line[..4] == DataField;
    assert Colon !in line[..4];
    assert line[4] == Colon;
    assert ColonIndex(line) == 4;
    assert line[5..] == [Space] + m;
    assert line[5..][1..] == m;
    assert |DataField| != |EventField|;
    assert ProcessField(Cleared, DataField, m) == Buffers([], m + [LF]);
    assert line != [] && line[0] != Colon;
  }

  /** Parsing a line that ends in LF: process the line, then parse what follows the LF. */
  lemma ParseLine(b: Buffers, p: JsString, rest: JsString)
    requires HasNoLineBreak(p)
    ensures var (b', events) := ProcessLine(b, p);
      Parse(b, p + [LF] + rest) == events + Parse(b', rest)
  {
    var s := p + [LF] + rest;
    assert s == p + ([LF] + rest);
    LineLengthOf(p, [LF] + rest);
    assert s[..|p|] == p && s[|p| + 1..] == rest;
  }

  /** The first line of a frame written out as a line with no line break. */
  lemma DataLineUnbroken(m: JsString)
    requires HasNoLineBreak(m)
    ensures HasNoLineBreak(Str("data: ") + m)
  {
    var line := Str("data: ") + m;
    forall i | 0 <= i < |line|
      ensures !IsLineBreak(line[i])
    {
      if i >= 6 {
        assert line[i] == m[i - 6];
      }
    }
  }

  /**
   A frame of a message with no line break is read back as one `message` event
   carrying exactly that message, and leaves the parser as it found it.
   */
  lemma FrameRoundTrip(m: JsString, rest: JsString)
    requires HasNoLineBreak(m)
    ensures Parse(Cleared, Frame(m) + rest) == [Event(MessageType, m)] + Parse(Cleared, rest)
  {
    var line := Str("data: ") + m;
    assert Frame(m) + rest == line + [LF] + ([] + [LF] + rest);
    DataLineUnbroken(m);
    ParseLine(Cleared, line, [] + [LF] + rest);
    DataLine(m);
    ParseLine(Buffers([], m + [LF]), [], rest);
  }

  /** The frames of a sequence of messages, one after the other. */
  function Frames(ms: seq<JsString>): JsString {
    if ms == [] then [] else Frame(ms[0]) + Frames(ms[1..])
  }

  /** The frames of one message followed by others are its frame followed by theirs. */
  lemma FramesCons(m: JsString, rest: seq<JsString>)
    ensures Frames([m] + rest) == Frame(m) + Frames(rest)
  {
    assert ([m] + rest)[1..] == rest;
  }

  /** The `message` events those messages should produce. */
  function MessageEvents(ms: seq<JsString>): (r: seq<Event>)
    ensures |r| == |ms|
    ensures forall i | 0 <= i < |ms| :: r[i] == Event(MessageType, ms[i])
  {
    if ms == [] then [] else [Event(MessageType, ms[0])] + MessageEvents(ms[1..])
  }

  /**
   The stream a subscriber is sent is read back, in order, as one `message`
   event per published message, provided no message holds a line break.
   */
  lemma {:induction false} StreamRoundTrip(ms: seq<JsString>)
    requires forall i | 0 <= i < |ms| :: HasNoLineBreak(ms[i])
    ensures Interpret(Frames(ms)) == MessageEvents(ms)
    decreases |ms|
  {
    if ms != [] {
      FrameRoundTrip(ms[0], Frames(ms[1..]));
      StreamRoundTrip(ms[1..]);
      assert Frames(ms)[0] != ByteOrderMark;
    }
  }

  /**
   A message with a line break is not delivered intact: if its second line has
   no colon and is not the bare word `data`, the client gets only the first line.
   */
  lemma MultiLineMessageTruncated(first: JsString, second: JsString)
    requires HasNoLineBreak(first) && HasNoLineBreak(second)
    requires Colon !in second && second != DataField
    ensures Interpret(Frame(first + [LF] + second)) == [Event(MessageType, first)]
  {
    var s := Frame(first + [LF] + second);
    var line1 := Str("data: ") + first;
    var b1 := Buffers([], first + [LF]);
    assert s == line1 + [LF] + (second + [LF] + ([] + [LF] + []));
    assert s[0] != ByteOrderMark;
    DataLineUnbroken(first);
    ParseLine(Cleared, line1, second + [LF] + ([] + [LF] + []));
    DataLine(first);
    ParseLine(b1, second, [] + [LF] + []);
    if second == [] {
      ParseLine(Cleared, [], []);
    } else {
      SecondLineIgnored(b1, second);
      ParseLine(b1, [], []);
    }
  }

  /**
   A message with a line break can also arrive as several messages: a blank
   line followed by `data: ` inside it ends the first event and starts another.
   */
  lemma MultiLineMessageSplit(first: JsString, second: JsString)
    requires HasNoLineBreak(first) && HasNoLineBreak(second)
    ensures Interpret(Frame(first + [LF, LF] + Str("data: ") + second))
         == [Event(MessageType, first), Event(MessageType, second)]
  {
    var s := Frame(first + [LF, LF] + Str("data: ") + second);
    assert s == Frame(first) + (Frame(second) + []);
    assert s[0] != ByteOrderMark;
    FrameRoundTrip(first, Frame(second) + []);
    FrameRoundTrip(second, []);
    assert Parse(Cleared, []) == [];
  }

  /**
   A message with a line break can also arrive under another event type: a
   second line `event: <t>` renames the event, so no `message` event is seen.
   */
  lemma MultiLineMessageRetyped(first: JsString, t: JsString)
    requires HasNoLineBreak(first) && HasNoLineBreak(t) && t != []
    ensures Interpret(Frame(first + [LF] + Str("event: ") + t)) == [Event(t, first)]
  {
    var s := Frame(first + [LF] + Str("event: ") + t);
    var line1 := Str("data: ") + first;
    var line2 := Str("event: ") + t;
    var b1 := Buffers([], first + [LF]);
    assert s == line1 + [LF] + (line2 + [LF] + ([] + [LF] + []));
    assert s[0] != ByteOrderMark;
    DataLineUnbroken(first);
    ParseLine(Cleared, line1, line2 + [LF] + ([] + [LF] + []));
    DataLine(first);
    EventLine(b1, t);
    ParseLine(b1, line2, [] + [LF] + []);
    ParseLine(b1.(eventType := t), [], []);
  }

  /** A line `event: <t>` sets the event type to `t` and dispatches nothing. */
  lemma EventLine(b: Buffers, t: JsString)
    requires HasNoLineBreak(t)
    ensures HasNoLineBreak(Str("event: ") + t)
    ensures ProcessLine(b, Str("event: ") + t) == (b.(eventType := t), [])
  {
    var line := Str("event: ") + t;
    forall i | 0 <= i < |line|
      ensures !IsLineBreak(line[i])
    {
      if i >= 7 {
        assert line[i] == t[i - 7];
      }
    }
    assert line[..5] == EventField;
    assert Colon !in line[..5];
    assert line[5] == Colon;
    assert ColonIndex(line) == 5;
    assert line[6..] == [Space] + t;
    assert line[6..][1..] == t;
    assert line != [] && line[0] != Colon;
  }

  /** A line with no colon other than `data` leaves a buffer with an empty event type unchanged. */
  lemma SecondLineIgnored(b: Buffers, line: JsString)
    requires b.eventType == [] && line != []
    requires Colon !in line && line != DataField
    ensures ProcessLine(b, line) == (b, [])
  {
    assert line[0] != Colon;
    assert ColonIndex(line) == |line|;
  }
}

=== FILE: js_text.dfy ===
/**
 JavaScript strings as the language defines them: finite sequences of UTF-16
 code units. `length`, `split('')`, `reverse`, `trim` and `encodeURIComponent`
 all work on code units, so modelling them this way keeps those operations exact.
 */
module JsText {

  /** One UTF-16 code unit. */
  newtype CodeUnit = c: int | 0 <= c < 0x1_0000

  type JsString = seq<CodeUnit>

  /** The code units of a literal whose characters all lie in the Basic Multilingual Plane. */
  function Str(s: string): (r: JsString)
    requires forall i | 0 <= i < |s| :: s[i] as int < 0x1_0000
    ensures |r| == |s|
    ensures forall i | 0 <= i < |s| :: r[i] as int == s[i] as int
  {
    seq(|s|, i requires 0 <= i < |s| => s[i] as int as CodeUnit)
  }

  const LF: CodeUnit := 0x0A
  const CR: CodeUnit := 0x0D
  const Space: CodeUnit := 0x20
  const Colon: CodeUnit := 0x3A

  /**
   The code units `String.prototype.trim` strips: WhiteSpace (TAB, VT, FF,
   ZWNBSP and the Unicode category Zs) and LineTerminator (LF, CR, LS, PS), as
   listed in sections 12.2 and 12.3 of ECMA-262. All of them lie in the Basic
   Multilingual Plane, so testing single code units is exact.
   */
  predicate IsWhitespace(c: CodeUnit) {
    || c == 0x09 || c == 0x0A || c == 0x0B || c == 0x0C || c == 0x0D
    || c == 0x20 || c == 0xA0 || c == 0x1680
    || (0x2000 <= c <= 0x200A)
    || c == 0x2028 || c == 0x2029 || c == 0x202F || c == 0x205F
    || c == 0x3000 || c == 0xFEFF
  }

  /** Every code unit of `s` is whitespace (the empty string included). */
  predicate IsBlank(s: JsString) {
    forall i | 0 <= i < |s| :: IsWhitespace(s[i])
  }

  /** Every code unit of `s` at a position in `[lo, hi)` is whitespace. */
  predicate BlankBetween(s: JsString, lo: int, hi: int)
    requires 0 <= lo <= hi <= |s|
  {
    forall i | lo <= i < hi :: IsWhitespace(s[i])
  }

  /** The first position at or after `i` that does not hold whitespace, or `|s|` when there is none. */
  function SkipBlank(s: JsString, i: nat): (j: nat)
    requires i <= |s|
    ensures i <= j <= |s|
    ensures BlankBetween(s, i, j)
    ensures j == |s| || !IsWhitespace(s[j])
    decreases |s| - i
  {
    if i < |s| && IsWhitespace(s[i]) then SkipBlank(s, i + 1) else i
  }

  /** The end of `s[lo..hi]` once its trailing whitespace is cut away. */
  function SkipBlankBack(s: JsString, lo: nat, hi: nat): (k: nat)
    requires lo <= hi <= |s|
    ensures lo <= k <= hi
    ensures BlankBetween(s, k, hi)
    ensures k == lo || !IsWhitespace(s[k - 1])
    decreases hi
  {
    if lo < hi && IsWhitespace(s[hi - 1]) then SkipBlankBack(s, lo, hi - 1) else hi
  }

  /**
   `String.prototype.trim`: the piece of `s` left after cutting away the
   whitespace on either side; it neither starts nor ends with whitespace.
   */
  function Trim(s: JsString): (r: JsString)
    ensures var a := SkipBlank(s, 0);
      && a + |r| <= |s|
      && r == s[a..a + |r|]
      && BlankBetween(s, 0, a)
      && BlankBetween(s, a + |r|, |s|)
    ensures r == [] || (!IsWhitespace(r[0]) && !IsWhitespace(r[|r| - 1]))
  {
    var a := SkipBlank(s, 0);
    var b := SkipBlankBack(s, a, |s|);
    s[a..b]
  }

  /** `s.trim() === ''` exactly when `s` consists of whitespace only. */
  lemma TrimEmptyIffBlank(s: JsString)
    ensures Trim(s) == [] <==> IsBlank(s)
  {
    var a := SkipBlank(s, 0);
    if Trim(s) == [] {
      assert BlankBetween(s, 0, a) && BlankBetween(s, a, |s|);
    }
  }

  /** A string with no whitespace at either end is left alone by `trim`. */
  lemma TrimOfTrimmed(s: JsString)
    requires s == [] || (!IsWhitespace(s[0]) && !IsWhitespace(s[|s| - 1]))
    ensures Trim(s) == s
  {
  }

  /** Trimming twice is trimming once. */
  lemma TrimIdempotent(s: JsString)
    ensures Trim(Trim(s)) == Trim(s)
  {
    TrimOfTrimmed(Trim(s));
  }

  /** The code units of `s` in the opposite order: `s.split('').reverse().join('')`. */
  function Reverse(s: JsString): (r: JsString)
    ensures |r| == |s|
    ensures forall i | 0 <= i < |s| :: r[i] == s[|s| - 1 - i]
  {
    if s == [] then [] else Reverse(s[1..]) + [s[0]]
  }

  /** Reversal undoes itself. */
  lemma ReverseInvolution(s: JsString)
    ensures Reverse(Reverse(s)) == s
  {
  }

  predicate IsHighSurrogate(c: CodeUnit) {
    0xD800 <= c <= 0xDBFF
  }

  predicate IsLowSurrogate(c: CodeUnit) {
    0xDC00 <= c <= 0xDFFF
  }

  /**
   No lone surrogate: every high surrogate is directly followed by a low one and
   every low surrogate directly preceded by a high one. `encodeURIComponent`
   throws a URIError on exactly the strings for which this fails.
   */
  predicate IsWellFormed(s: JsString) {
    forall i | 0 <= i < |s| ::
      && (IsHighSurrogate(s[i]) ==> i + 1 < |s| && IsLowSurrogate(s[i + 1]))
      && (IsLowSurrogate(s[i]) ==> 0 < i && IsHighSurrogate(s[i - 1]))
  }

  /** A line terminator as the event-stream format counts them (CR or LF). */
  predicate IsLineBreak(c: CodeUnit) {
    c == CR || c == LF
  }

  predicate HasNoLineBreak(s: JsString) {
    forall i | 0 <= i < |s| :: !IsLineBreak(s[i])
  }
}

=== FILE: wrappers.dfy ===
/** Optional values: a JavaScript `undefined` (or a failed lookup) is `None`. */
module Wrappers {

  datatype Option<+T> = None | Some(value: T) {

    /** The value, or `default` when there is none (JavaScript's `x || default` on objects). */
    function GetOr(default: T): (r: T)
      ensures Some? ==> r == value
      ensures None? ==> r == default
    {
      match this
      case Some(v) => v
      case None => default
    }
  }
}
